=== FILE: README.md ===
# Solana token presale: a verified model

This project models the token-sale ("ICO") program of a Solana presale dapp and the decision logic of the web page that drives it.

The program keeps one record, `Data { admin, total_tokens, tokens_sold }`. Three instructions change it:

- `create_ico_ata` opens the program's vault and funds it from the admin's token account.
- `deposit_ico_in_ata` lets the recorded admin add tokens to the vault.
- `buy_tokens` charges the buyer 0.001 SOL per token, pays the tokens out of the vault and counts them as sold.

Amounts are `u64` whole tokens. The SPL transfers move raw units, which are whole tokens times `TOKEN_DECIMALS = 10^9`. The price is `LAMPORTS_PER_TOKEN = 10^6` lamports. Every conversion is a checked multiplication, and a failed instruction reverts completely.

The page does the following:

- finds out whether the connected wallet is the admin;
- loads the first listed sale record;
- accepts only positive amounts;
- sends one of the three instructions;
- shows the wallet's token balance;
- renders buttons that depend on the wallet's role.

Layout (one module per file):

- `wrappers.dfy` (`Wrappers`): `Option` and `Result`.
- `uint64.dfy` (`UInt64`): the u64 range, `checked_mul`, `checked_add`, and wrapping `+`.
- `ledger.dfy` (`Ledger`): token accounts and lamport balances as maps. The SPL token transfer fails on a missing account, insufficient funds, a wrong owner or an overflowing destination. The system transfer fails on insufficient funds or an overflowing destination. A transfer to the same account changes nothing.
- `ico.dfy` (`Ico`): the record, the errors, the three instructions, and atomic execution of transactions.
- `conservation.dfy` (`IcoConservation`): the vault invariants and the facts that follow from them. `Conserved` is the exact equality kept by the corrected program's instructions when the signer's token account is not the vault. `Backed` is the lower bound that also survives tokens anyone sends into the vault.
- `findings.dfy` (`IcoFindings`): the deposit and the buy as written, where they differ from the corrected ones, with inputs that show each difference.
- `decimal.dfy` (`Decimal`): the base-10 text of a balance and how it reads back.
- `client.dfy` (`Client`): the page's decisions, as pure functions of the answers the network gave.

Network answers, wallet signing and address derivation are inputs to the model. The vault address is a field of `Chain`. The wallet's token account is a parameter. The record a wallet's derived address holds is `Client.FetchOwnSale`.

One sale at most: the vault's address is derived from the mint alone, and creating a sale opens the vault. So only the first create can succeed anywhere in the program, and `Chain.sale` is an `Option<Data>`.

Accounts are checked before any instruction body runs. Accounts that must already exist are loaded first, and a missing one gives AccountNotInitialized. Then `init` opens new accounts, and an `init` of an existing account gives AccountAlreadyInUse. The program's own checks come after that.

`Ico.Execute` and `Ico.Run` run the corrected program, with the two corrections listed under "## Findings". The program as written is `Ico.BuyTokensAsWritten` and `IcoFindings.DepositIcoInAtaAsWritten`.

## Model

| member | source | states |
|---|---|---|
| `Ledger.TokenTransfer` | Contract/SolanaICO.rs:104-117 | A token transfer succeeds exactly when both accounts exist, the source covers the amount, the signer owns the source, and the destination does not overflow. On success the amount moves from source to destination and no other account changes. |
| `Ledger.LamportTransfer` | Contract/SolanaICO.rs:89-101 | A lamport transfer succeeds exactly when the payer covers the amount and the payee does not overflow. The sum of the two balances is conserved and every other balance is unchanged. |
| `Ico.RawAmountFits` | Contract/SolanaICO.rs:17-18 | The raw amount `n * 10^9` fits in u64 exactly when `n <= 18,446,744,073`. Whenever it fits, the lamport price `n * 10^6` fits too. |
| `Ico.CreateIcoAta` | Contract/SolanaICO.rs:21-45 | Create fails with AccountNotInitialized exactly when the admin's token account is missing. Once that account loads, it fails with AccountAlreadyInUse exactly when a sale or the vault already exists. Otherwise it returns Overflow exactly when the raw amount overflows. It succeeds exactly when, in addition, the signer owns that account and it covers the raw amount. Afterwards the record is `(signer, amount, 0)`, the vault is self-owned and holds the raw amount, the admin's account lost it, and lamports are untouched. |
| `Ico.DepositFunds` | Contract/SolanaICO.rs:47-65 | AccountNotInitialized exactly when the record, the destination or the admin's token account is missing. Once they load, InvalidAdmin exactly for a signer other than the recorded admin. Then Overflow exactly when the raw amount overflows. Otherwise the result is exactly the transfer from the admin's account to the named destination. |
| `Ico.DepositIcoInAta` | Contract/SolanaICO.rs:47-72 | The corrected deposit. AccountNotInitialized exactly when an account is missing. ConstraintSeeds exactly when the accounts load but the destination is not the vault. InvalidAdmin exactly for a non-admin signer. Overflow exactly when the raw amount or the new total overflows. On success the total rises by exactly the amount, admin and sold count are unchanged, the vault gains the raw amount, the admin's account loses it, and lamports are untouched. |
| `Ico.BuyTokensAsWritten` | Contract/SolanaICO.rs:74-128 | The buy as the program checks it. AccountNotInitialized exactly when the record, the vault or the buyer's token account is missing. After that, success has exact conditions, and Overflow comes only from the raw amount or from `tokens_sold + amount`. On success the sold count rises by the amount and the total is unchanged. The buyer pays exactly `amount * 10^6` lamports to the named payee, and the pair's lamport sum is conserved. The vault pays the raw amount to the buyer's account and nothing else changes. |
| `Ico.BuyTokens` | Contract/SolanaICO.rs:219-223 | The corrected buy. AccountNotInitialized exactly as for the buy as written. Once the accounts load, it returns InvalidAdmin exactly when the payee is not the recorded admin. Once the accounts load and the payee is the recorded admin, it behaves exactly as the buy as written. A successful buy names the recorded admin as payee, and when the buyer is someone else that admin gains exactly the price. |
| `Ico.Execute` | Contract/SolanaICO.rs:21-128 | One transaction of the corrected program. If it fails, every account and the record are exactly as before. It commits exactly when its instruction succeeds. When it commits, the chain after it is exactly the state the instruction produced. |
| `IcoConservation.SoldWithinTotal` | Contract/SolanaICO.rs:120-124 | On a conserved chain `tokens_sold <= total_tokens`, although the program never compares them. |
| `IcoConservation.CreatePreservesConserved` | Contract/SolanaICO.rs:24-42 | A successful create leaves the vault holding `(total - sold) * 10^9`. |
| `IcoConservation.DepositPreservesConserved` | Contract/SolanaICO.rs:53-68 | A successful corrected deposit keeps the vault equal to `(total - sold) * 10^9`, whatever destination it names. |
| `IcoConservation.BuyAsWrittenPreservesConserved` | Contract/SolanaICO.rs:80-124 | A successful buy as written, whoever it pays, keeps the vault equal to `(total - sold) * 10^9`. |
| `IcoConservation.BuyPreservesConserved` | Contract/SolanaICO.rs:80-124 | A successful corrected buy keeps the vault equal to `(total - sold) * 10^9`. |
| `IcoConservation.ExecutePreservesConserved` | Contract/SolanaICO.rs:21-128 | Any transaction of the corrected program, committed or reverted, keeps the vault invariant. |
| `IcoConservation.RunPreservesConserved` | Contract/SolanaICO.rs:21-128 | Any sequence of the corrected program's transactions keeps the vault invariant (proof by induction on the sequence). |
| `IcoConservation.BuyOverflowsOnlyOnRawAmount` | Contract/SolanaICO.rs:80-124 | On a conserved chain a buy returns Overflow exactly when its accounts load, it pays the recorded admin, and the raw amount overflows. `tokens_sold + amount` cannot overflow there. |
| `IcoConservation.BuyBeyondUnsoldFails` | Contract/SolanaICO.rs:104-117 | On a conserved chain, a buy of more than `total - sold` tokens fails and changes nothing. |
| `IcoConservation.BuyWithinUnsoldSucceeds` | Contract/SolanaICO.rs:74-128 | On a conserved chain, a buy succeeds when all of these hold: the amount is within the unsold tokens; it is paid to the recorded admin; the buyer can afford it; the admin's balance can take the price, or the buyer is the admin; and the named token account exists, is not the vault, and can take the tokens. That account need not be the buyer's. |
| `IcoConservation.ApplyKeepsBacked` | Contract/SolanaICO.rs:104-117 | The vault holding at least `(total - sold) * 10^9` survives every transaction of the corrected program not signed by the vault, and every plain token transfer not signed by the vault. That includes a buy that names the vault as the buyer's token account. Only the program signs for the vault, so nothing else takes tokens out. |
| `IcoConservation.ReplayKeepsBacked` | Contract/SolanaICO.rs:104-117 | The same lower bound holds after any mix of such transactions of the corrected program and outside transfers (proof by induction on the history). The deposit as written can break it (`IcoFindings.DepositElsewhereBreaksConservation`). |
| `IcoConservation.OutsideTokensBreakConservation` | Contract/SolanaICO.rs:104-124 | The lower bound is all that survives outside transfers. A sold-out vault that was sent one extra token lets a buy through, and the sold count passes the total. |
| `IcoFindings.BuyerCanPayItself` | Contract/SolanaICO.rs:219-223 | As written, a buyer who names itself as `admin` receives a token and keeps all its lamports, and the recorded admin gets nothing. The corrected buy refuses the same call. |
| `IcoFindings.CorrectedBuyPaysRecordedAdmin` | Contract/SolanaICO.rs:89-101 | With the corrected buy, when the buyer is not the admin, the recorded admin gains and the buyer loses exactly `amount * 10^6` lamports. |
| `IcoFindings.DepositIcoInAtaAsWritten` | Contract/SolanaICO.rs:47-72 | The deposit as written: any destination token account, and a wrapping `+=`. It fails exactly when the loading, admin, raw-amount or transfer steps fail, with their error. On success the tokens have moved from the admin's account to the named destination, lamports and the vault address are unchanged, and the total becomes `(total + amount) mod 2^64`, which is smaller than before when it wraps. |
| `IcoFindings.BuyIntoVaultInflatesSold` | Contract/SolanaICO.rs:199-216 | A buyer who names the vault as its own token account, and itself as payee, gets a successful buy that raises the sold count while no token or lamport moves. This breaks the exact equality but keeps the lower bound. |
| `IcoFindings.BuyIntoVaultOversells` | Contract/SolanaICO.rs:199-216 | Repeated, the same call passes the total, even when the corrected buy pays the admin. The sold count reaches 11 of 10, so the page's Available figure is negative. |
| `IcoFindings.WrappedDepositBreaksConservation` | Contract/SolanaICO.rs:68 | Take a conserved chain with total = sold = u64::MAX. A wrapping deposit of 1 sets the total to 0 and breaks the vault invariant. The checked deposit refuses with Overflow. |
| `IcoFindings.DepositElsewhereBreaksConservation` | Contract/SolanaICO.rs:173-174 | Take a conserved sale of 10 tokens. As written, depositing 5 into the admin's own second account raises the total to 15 while the vault still holds 10, so even the lower bound fails. The corrected deposit refuses with ConstraintSeeds. |
| `IcoFindings.CorrectedDepositCreditsVault` | Contract/SolanaICO.rs:199-205 | A successful corrected deposit named the vault as its destination, and the vault gained exactly the raw amount. |
| `Decimal.NatToString` | pages/index.js:292 | A balance is rendered as digits only, with no leading zero. |
| `Decimal.ValueOfNatToString` | pages/index.js:292 | Reading the rendered balance gives the balance back. |
| `Client.CheckIfAdmin` | pages/index.js:64-92 | If the own-address fetch succeeds, the wallet is admin exactly when the record's admin is the wallet. If that fetch fails and the listing is empty, the wallet is admin. If the listing is non-empty, the wallet is not admin and the first record is shown. If the listing fails, the wallet is not admin. With no wallet nothing changes. |
| `Client.AdminDiscoveryOnChain` | pages/index.js:71-86 | Against a chain, the wallet is shown as admin exactly when no sale exists or the wallet created it. A non-admin is shown the chain's sale. |
| `Client.FetchIcoData` | pages/index.js:94-106 | The displayed record becomes the first listed one when the listing is non-empty. Otherwise it is kept. Nothing else changes. |
| `Client.ConnectRefreshesCommute` | pages/index.js:48-54 | The two unawaited refreshes started on connect give the same page in either completion order. That page shows the chain's sale when one exists. |
| `Client.Plan` | pages/index.js:108-268 | An action is rejected exactly when the amount is empty or not positive. It gets "no program" exactly when, in addition, no wallet is connected. A buy stops as unaffordable exactly when the pre-flight check fails, and for want of a record exactly when none is loaded. Every other accepted amount that fits in u64 is submitted. A submitted instruction carries exactly the entered amount, the wallet as signer and the wallet's token account. A deposit names the vault as destination, and a buy names the loaded record's admin as payee. Only a buy opens a missing token account first. Amounts beyond u64 are never sent. |
| `Client.Settle` | pages/index.js:147-155 | Every action ends with the busy flag cleared. Anything short of a confirmed submission changes nothing else. A confirmed one keeps the role. It shows the first record of the fresh listing, or keeps the old one when the listing is empty or failed. It keeps the balance unless it was a buy. After a buy, the balance is the numeral of the looked-up raw amount, or 0 when there is no account. |
| `Client.RejectedAmountChangesNothing` | pages/index.js:110-113 | A refused amount sends nothing. The only change to the page is clearing the busy flag. |
| `Client.FetchUserTokenBalance` | pages/index.js:281-301 | The shown balance is a numeral whose value is the account's raw amount. It is "0" when the account is missing or the lookup fails. With no wallet nothing changes. |
| `Client.MissingAccountReadsAsZero` | pages/index.js:290-300 | A missing account and a failed lookup display exactly as an account holding 0. |
| `Client.Controls` | pages/index.js:444-482 | Initialize is shown exactly for an admin with no record. Deposit is shown exactly for an admin with one. Buy is shown exactly for a non-admin or an admin with a record. Each button appears at most once. A button is enabled exactly when nothing is loading, and for Buy also a record is loaded. |
| `Client.EnabledBuyNamesLoadedAdmin` | pages/index.js:474-482 | A click on an enabled Buy button always has a record to read the payee from, and sends that record's admin. |
| `Client.FirstViewButtons` | pages/index.js:444-482 | After connecting, the first view shows Initialize alone when no sale exists, Deposit and Buy to the sale's admin, and Buy alone to anyone else. |
| `Client.AvailableIsVaultContent` | pages/index.js:371-373 | On a conserved chain the "Available" figure is never negative. It equals the whole tokens the vault holds. |
| `Client.PageBuyPassesAdminCheck` | pages/index.js:256-268 | A buy sent from a page that shows the chain's sale is never refused as InvalidAdmin by the corrected program. |
| `Client.InitializeOverflowThreshold` | pages/index.js:134-146 | The page sends any positive u64 amount. The program then reports Overflow exactly when no sale exists yet, the wallet's token account loads, and the amount is above 18,446,744,073. |
| `Client.ConfirmedInitializeShowsSale` | pages/index.js:115-155 | After a confirmed Initialize, the refreshed page shows a sale of the entered amount with the wallet as admin and none sold. The balance is unchanged. |
| `Client.ConfirmedDepositShowsTotal` | pages/index.js:158-204 | After a confirmed Deposit, the refreshed page shows the total up by the amount deposited. The sold count and the admin are as before, the admin is the wallet, and the balance is unchanged. |
| `Client.ConfirmedBuyShowsPurchase` | pages/index.js:256-272 | After a confirmed buy the refreshed page shows the sold count up by the amount bought, the same total, and a balance up by the amount times 10^9. |

## Left out

- Address derivation (`findProgramAddress`, `getAssociatedTokenAddress`, the bump seed) is not modelled. The vault address, the wallet's token account and the record at a wallet's derived address are inputs. The buy's `bump` argument is assumed to be the canonical one.
- Anchor's account constraints are not code here. `init` of an existing account is `AccountAlreadyInUse`, and reading a record that does not exist is `AccountNotInitialized`. The mint's `address =` constraint is implied by the single mint. The vault's `seeds` constraint in `create_ico_ata` and `buy_tokens` is implied by the single vault: those instructions always use `Chain.vault`. `deposit_ico_in_ata` has no such constraint, so its destination is a parameter (see "## Findings"). The rent paid by `init` is not modelled.
- The model keeps one record and ignores which record address an instruction names. The program accepts any record account in a deposit. A deposit the page sends for a non-admin names the record address derived from the wallet, which holds no record, so it fails with "not initialized" rather than InvalidAdmin. A caller who names the real record gets InvalidAdmin, as the model returns. Both errors leave everything unchanged.
- The exact-equality lemmas assume the signer's token account is not the vault. Whether the framework rejects the same mutable account passed twice depends on its version, which is not part of this model.
- IcoFindings.BuyIntoVaultInflatesSold: nothing in `buy_tokens` (lines 199-216) keeps `ico_ata_for_user` apart from the vault. Where the framework accepts the vault passed twice, anyone can raise `tokens_sold` for free, and repeated buys drive the page's Available figure negative (`IcoFindings.BuyIntoVaultOversells`). The model keeps this behaviour in both buys. It is not listed as a finding, because whether the call is accepted depends on the framework version. `IcoConservation.Backed` still holds; `IcoConservation.Conserved` does not.
- SPL token details other than balance, owner and self-transfer are not modelled: frozen accounts, delegates and mint mismatch. Program logs (`msg!`) are also left out.
- `Ico.Run` states only that the vault address is unchanged. Its meaning is carried by `IcoConservation.RunPreservesConserved`.
- `IcoConservation.Replay` states only that the vault address is unchanged. Its meaning is carried by `IcoConservation.ReplayKeepsBacked`.
- Ico.Execute: a failed transaction still pays its fee in lamports. Fees are not modelled, so "every account is as before" covers everything but the fee payer's lamports.
- IcoConservation.BuyWithinUnsoldSucceeds: "the buyer can afford it" means only that the buyer's lamports cover `amount * 10^6`. The fee of the successful transaction and the runtime's rent-exempt minimum for the buyer's remaining balance are not modelled, so on chain a buyer with exactly the price in hand is refused.
- IcoConservation.Conserved: the exact equality holds only while the vault receives tokens through the corrected program. Anyone can send tokens into the vault with a plain SPL transfer, because a transfer needs only the source's signature. After that the vault holds more than `(total - sold) * 10^9`, and `IcoConservation.Backed` (at least that much) is what still holds. So with outside tokens a buy can sell more than the total (`IcoConservation.OutsideTokensBreakConservation`).
- Client, floating point: the pre-flight check `balance < solCost * 1e9 + 5000` is the boolean input `affordable`. The `toFixed` and `/ 1e9` formatting of prices and balances is not modelled.
- Client.Available: the page computes the figure by subtracting JavaScript numbers (doubles). That is exact only below 2^53. The model uses exact integers, so for larger counts it states what the page means rather than what it prints.
- Client, input parsing: `parseInt` on text is not modelled. The entered amount is an integer or absent. An unparseable text such as "abc" passes the JavaScript guard, because `NaN <= 0` is false, and then fails when the amount is encoded. The model has no such input.
- Client, runtime: React state, effects and rendering, the advisory `loading` race, the 2-second wait after opening a token account, signing, RPC errors other than "confirmed or not", alerts and console output are not modelled. The status text and the placeholder text are not modelled either.
- The code clears the busy flag in `finally` even when the amount guard returns early. So a refused amount is not entirely "no state change": `Client.RejectedAmountChangesNothing` states this.

## Findings

| source | as written | input that shows it | evidently intended | confidence | as-written member | corrected member |
|---|---|---|---|---|---|---|
| Contract/SolanaICO.rs:219-223 | `buy_tokens` sends the price to whatever `admin` account the caller passes. That account is never compared with `data.admin`. | A buyer passes its own key as `admin`. It receives the tokens and pays nothing. (`IcoFindings.BuyerCanPayItself`) | The payee is the recorded admin, checked the way `deposit_ico_in_ata` checks its signer at lines 48-50. | high; not executed | `Ico.BuyTokensAsWritten` | `Ico.BuyTokens` |
| Contract/SolanaICO.rs:173-174 | `deposit_ico_in_ata` takes any writable token account as `ico_ata_for_ico_program`. Unlike in `buy_tokens` (lines 200-205), there is no `seeds` constraint tying it to the vault. | The admin deposits 5 tokens into a second account of its own. `total_tokens` rises by 5 and the vault does not (`IcoFindings.DepositElsewhereBreaksConservation`). Buyers are then refused tokens the record says are available. | The same `seeds = [ico_mint]` constraint as in `buy_tokens`, so the deposit must go to the vault. | high; not executed | `IcoFindings.DepositIcoInAtaAsWritten` | `Ico.DepositIcoInAta` |
| Contract/SolanaICO.rs:68 | `total_tokens += ico_amount` is unchecked. In a build without overflow checks it wraps. | A conserved record with total = sold = u64::MAX, then a deposit of 1: the total wraps to 0 and the vault no longer matches. (`IcoFindings.WrappedDepositBreaksConservation`) | `checked_add` with `ErrorCode::Overflow`, as the other arithmetic uses. | low: it depends on the release overflow-check setting, and reaching the state needs about 10^9 buy-and-redeposit cycles; not executed | `IcoFindings.DepositIcoInAtaAsWritten` | `Ico.DepositIcoInAta` |

=== FILE: client.dfy ===
/** The decision logic of the page that drives the sale: who is shown as
    admin, which sale record is displayed, which amounts an action accepts,
    what each action sends, what balance is shown, and which buttons appear.
    Network calls are inputs: a fetch that threw is None, a listing is the
    sequence of records in the order the query returned them. */
module Client {
  import opened Wrappers
  import opened UInt64
  import opened Ledger
  import opened Ico
  import opened IcoConservation
  import opened Decimal

  /** The page's state: the role shown, the sale record displayed (null
      until one is loaded), the busy flag, and the balance text. */
  datatype Page = Page(isAdmin: bool, icoData: Option<Data>, loading: bool, balance: Option<string>)

  /** The page before any effect has run. */
  const InitialPage: Page := Page(false, None, false, None)

  // ---------------------------------------------------------------------
  // Role and sale discovery

  /** `checkIfAdmin`. `own` is the fetch of the record at the address
      derived from the wallet's key; `listing` is the listing of every
      record, consulted only when that fetch failed. */
  function CheckIfAdmin(p: Page, wallet: Option<Pubkey>, own: Option<Data>, listing: Option<seq<Data>>): (r: Page)
    ensures wallet.None? ==> r == p
    ensures r.loading == p.loading && r.balance == p.balance
    ensures wallet.Some? && own.Some? ==>
              r.isAdmin == (own.value.admin == wallet.value) && r.icoData == p.icoData
    ensures wallet.Some? && own.None? && listing == Some([]) ==>
              r.isAdmin && r.icoData == p.icoData
    ensures wallet.Some? && own.None? && listing.Some? && |listing.value| > 0 ==>
              !r.isAdmin && r.icoData == Some(listing.value[0])
    ensures wallet.Some? && own.None? && listing.None? ==>
              !r.isAdmin && r.icoData == p.icoData
  {
    if wallet.None? then p
    else match own
      case Some(d) => p.(isAdmin := d.admin == wallet.value)
      case None =>
        match listing
        case None => p.(isAdmin := false)
        case Some(accounts) =>
          if |accounts| == 0 then p.(isAdmin := true)
          else p.(isAdmin := false, icoData := Some(accounts[0]))
  }

  /** `fetchIcoData`: the first listed record replaces the displayed one; an
      empty or failed listing leaves it as it was. */
  function FetchIcoData(p: Page, connected: bool, listing: Option<seq<Data>>): (r: Page)
    ensures r.isAdmin == p.isAdmin && r.loading == p.loading && r.balance == p.balance
    ensures r.icoData == (if connected && listing.Some? && |listing.value| > 0 then Some(listing.value[0]) else p.icoData)
  {
    if connected && listing.Some? && |listing.value| > 0 then p.(icoData := Some(listing.value[0])) else p
  }

  /** The listing of records as the chain answers it: the one sale, if any. */
  function ListSales(c: Chain): seq<Data>
  {
    if c.sale.Some? then [c.sale.value] else []
  }

  /** The fetch at the wallet's derived record address. A record lives at
      the address derived from its admin's key, so the fetch finds the sale
      exactly when the wallet is its admin. */
  function FetchOwnSale(c: Chain, wallet: Pubkey): Option<Data>
  {
    if c.sale.Some? && c.sale.value.admin == wallet then c.sale else None
  }

  /** Against an actual chain, the page calls the wallet admin exactly when
      no sale exists yet or the wallet created it, and a non-admin is shown
      the existing sale. */
  lemma AdminDiscoveryOnChain(p: Page, c: Chain, wallet: Pubkey)
    ensures var r := CheckIfAdmin(p, Some(wallet), FetchOwnSale(c, wallet), Some(ListSales(c)));
            && (r.isAdmin <==> c.sale.None? || c.sale.value.admin == wallet)
            && (!r.isAdmin ==> r.icoData == c.sale)
  {
  }

  /** On connecting, `checkIfAdmin` and `fetchIcoData` are started without
      waiting for each other. Against one chain their updates commute, and
      afterwards the page shows the chain's sale whenever one exists. */
  lemma ConnectRefreshesCommute(p: Page, c: Chain, wallet: Pubkey)
    ensures var own := FetchOwnSale(c, wallet);
            var all := Some(ListSales(c));
            var r := FetchIcoData(CheckIfAdmin(p, Some(wallet), own, all), true, all);
            && r == CheckIfAdmin(FetchIcoData(p, true, all), Some(wallet), own, all)
            && (c.sale.Some? ==> r.icoData == c.sale)
            && (c.sale.None? ==> r.icoData == p.icoData && r.isAdmin)
  {
  }

  // ---------------------------------------------------------------------
  // Actions

  datatype Action = InitializeAction | DepositAction | BuyAction

  /** How an action ends before or at submission. */
  datatype Attempt =
    | Rejected                                    // amount empty or not positive
    | NoProgram                                   // no wallet connected
    | Unaffordable                                // buy: the pre-flight balance check failed
    | NoSaleLoaded                                // buy: no record loaded to name its admin
    | Unencodable(openAccount: bool)              // the amount does not fit a u64 argument
    | Submitted(openAccount: bool, ix: Instruction)

  /** The guard every action applies first. */
  predicate AmountAccepted(input: Option<int>)
  {
    input.Some? && input.value > 0
  }

  /** What a click sends. `walletAta` is the wallet's associated token
      account, `vault` the sale's token account as the page derives it from
      the mint, `affordable` the outcome of the buy's pre-flight balance
      check, `ataExists` whether that token account already exists (if not,
      the buy first sends a transaction that opens it). */
  function Plan(a: Action, input: Option<int>, wallet: Option<Pubkey>, walletAta: Pubkey, vault: Pubkey,
                icoData: Option<Data>, affordable: bool, ataExists: bool): (r: Attempt)
    ensures r == Rejected <==> !AmountAccepted(input)
    ensures r == NoProgram <==> AmountAccepted(input) && wallet.None?
    ensures r == Unaffordable <==> AmountAccepted(input) && wallet.Some? && a == BuyAction && !affordable
    ensures r == NoSaleLoaded <==>
              AmountAccepted(input) && wallet.Some? && a == BuyAction && affordable && icoData.None?
    ensures (&& AmountAccepted(input) && input.value <= UINT64_MAX && wallet.Some?
             && (a == BuyAction ==> affordable && icoData.Some?)) ==> r.Submitted?
    ensures r.Submitted? ==>
              && AmountAccepted(input) && input.value <= UINT64_MAX
              && r.ix.amount == input.value
              && wallet == Some(r.ix.signer)
              && r.ix.ata == walletAta
              && (r.ix.CreateIco? <==> a == InitializeAction)
              && (r.ix.Deposit? <==> a == DepositAction)
              && (r.ix.Buy? <==> a == BuyAction)
    ensures r.Submitted? && r.ix.Buy? ==> affordable && icoData.Some? && r.ix.admin == icoData.value.admin
    ensures r.Submitted? && r.ix.Deposit? ==> r.ix.dest == vault
    ensures (r.Submitted? || r.Unencodable?) ==> (r.openAccount <==> a == BuyAction && !ataExists)
    ensures r.Unencodable? ==> input.value > UINT64_MAX
  {
    if !AmountAccepted(input) then Rejected
    else if wallet.None? then NoProgram
    else if a == BuyAction && !affordable then Unaffordable
    else if a == BuyAction && icoData.None? then NoSaleLoaded
    else
      var openAccount := a == BuyAction && !ataExists;
      if input.value > UINT64_MAX then Unencodable(openAccount)
      else
        var n: uint64 := input.value;
        match a
        case InitializeAction => Submitted(false, CreateIco(wallet.value, walletAta, n))
        case DepositAction => Submitted(false, Deposit(wallet.value, walletAta, vault, n))
        case BuyAction => Submitted(openAccount, Buy(wallet.value, walletAta, icoData.value.admin, n))
  }

  // ---------------------------------------------------------------------
  // Token balance

  /** The outcomes of `fetchUserTokenBalance`'s lookups. */
  datatype BalanceLookup =
    | NotConnected          // returns before looking anything up
    | LookupFailed          // deriving the account address threw
    | NoAccount             // the token account does not exist
    | Found(amount: uint64) // the token account's raw balance

  /** The lookup as the chain answers it. */
  function LookupOnChain(c: Chain, ata: Pubkey): BalanceLookup
  {
    if ata in c.tokens then Found(c.tokens[ata].amount) else NoAccount
  }

  /** `fetchUserTokenBalance`: the raw balance as a numeral, and "0" for a
      missing account or any failure. */
  function FetchUserTokenBalance(p: Page, lookup: BalanceLookup): (r: Page)
    ensures lookup.NotConnected? ==> r == p
    ensures r.isAdmin == p.isAdmin && r.icoData == p.icoData && r.loading == p.loading
    ensures !lookup.NotConnected? ==>
              && r.balance.Some? && IsNumeral(r.balance.value)
              && Value(r.balance.value) == (if lookup.Found? then lookup.amount else 0)
    ensures lookup.LookupFailed? || lookup.NoAccount? ==> r.balance == Some("0")
  {
    match lookup
    case NotConnected => p
    case Found(n) =>
      ValueOfNatToString(n);
      p.(balance := Some(NatToString(n)))
    case _ => p.(balance := Some("0"))
  }

  /** A wallet without a token account reads exactly like one holding zero. */
  lemma MissingAccountReadsAsZero(p: Page)
    ensures FetchUserTokenBalance(p, NoAccount) == FetchUserTokenBalance(p, Found(0))
    ensures FetchUserTokenBalance(p, LookupFailed) == FetchUserTokenBalance(p, Found(0))
  {
  }

  // ---------------------------------------------------------------------
  // Settling an action

  /** The end of an action: on a confirmed submission the sale record is
      refreshed (and, after a buy, the balance); the busy flag is cleared
      whatever happened. */
  function Settle(p: Page, attempt: Attempt, confirmed: bool, listing: Option<seq<Data>>, lookup: BalanceLookup): (r: Page)
    ensures !r.loading
    ensures !(attempt.Submitted? && confirmed) ==> r == p.(loading := false)
    ensures attempt.Submitted? && confirmed ==> r.isAdmin == p.isAdmin
    ensures attempt.Submitted? && confirmed ==>
              r.icoData == (if listing.Some? && |listing.value| > 0 then Some(listing.value[0]) else p.icoData)
    ensures attempt.Submitted? && confirmed && !attempt.ix.Buy? ==> r.balance == p.balance
    ensures attempt.Submitted? && confirmed && attempt.ix.Buy? && !lookup.NotConnected? ==>
              && r.balance.Some? && IsNumeral(r.balance.value)
              && Value(r.balance.value) == (if lookup.Found? then lookup.amount else 0)
  {
    var done := p.(loading := false);
    if attempt.Submitted? && confirmed then
      var refreshed := FetchIcoData(done, true, listing);
      if attempt.ix.Buy? then FetchUserTokenBalance(refreshed, lookup) else refreshed
    else done
  }

  /** An amount the guard refuses sends nothing and changes nothing on the
      page except clearing the busy flag. */
  lemma RejectedAmountChangesNothing(a: Action, input: Option<int>, wallet: Option<Pubkey>, walletAta: Pubkey,
                                     vault: Pubkey, affordable: bool, ataExists: bool, p: Page, confirmed: bool,
                                     listing: Option<seq<Data>>, lookup: BalanceLookup)
    requires !AmountAccepted(input)
    ensures var attempt := Plan(a, input, wallet, walletAta, vault, p.icoData, affordable, ataExists);
            && attempt == Rejected
            && Settle(p, attempt, confirmed, listing, lookup) == p.(loading := false)
  {
  }

  // ---------------------------------------------------------------------
  // Buttons

  datatype Button = InitializeButton | DepositButton | BuyButton

  /** A rendered button and whether it accepts clicks. */
  datatype Control = Control(button: Button, enabled: bool)

  predicate Shows(r: seq<Control>, b: Button)
  {
    exists i :: 0 <= i < |r| && r[i].button == b
  }

  /** The action buttons rendered for a page. */
  function Controls(connected: bool, p: Page): (r: seq<Control>)
    ensures Shows(r, InitializeButton) <==> connected && p.isAdmin && p.icoData.None?
    ensures Shows(r, DepositButton) <==> connected && p.isAdmin && p.icoData.Some?
    ensures Shows(r, BuyButton) <==> connected && (!p.isAdmin || p.icoData.Some?)
    ensures forall i :: 0 <= i < |r| ==>
              (r[i].enabled <==> !p.loading && (r[i].button == BuyButton ==> p.icoData.Some?))
    ensures forall i, j :: 0 <= i < j < |r| ==> r[i].button != r[j].button
  {
    if !connected then []
    else if p.isAdmin then
      if p.icoData.None? then
        var r := [Control(InitializeButton, !p.loading)];
        assert r[0].button == InitializeButton;
        r
      else
        var r := [Control(DepositButton, !p.loading), Control(BuyButton, !(p.loading || p.icoData.None?))];
        assert r[0].button == DepositButton && r[1].button == BuyButton;
        r
    else
      var r := [Control(BuyButton, !(p.loading || p.icoData.None?))];
      assert r[0].button == BuyButton;
      r
  }

  /** A click on an enabled Buy button always has a record to name the
      payee from, and that payee is the record's admin. */
  lemma EnabledBuyNamesLoadedAdmin(p: Page, i: nat, input: Option<int>, wallet: Option<Pubkey>,
                                   walletAta: Pubkey, vault: Pubkey, affordable: bool, ataExists: bool)
    requires i < |Controls(true, p)| && Controls(true, p)[i] == Control(BuyButton, true)
    ensures var r := Plan(BuyAction, input, wallet, walletAta, vault, p.icoData, affordable, ataExists);
            && r != NoSaleLoaded
            && (r.Submitted? ==> r.ix.admin == p.icoData.value.admin)
  {
  }

  /** The first page a wallet sees after connecting: Initialize alone when
      no sale exists, Deposit and Buy for the sale's admin, and Buy alone
      for anyone else. */
  lemma FirstViewButtons(c: Chain, wallet: Pubkey)
    ensures var own := FetchOwnSale(c, wallet);
            var all := Some(ListSales(c));
            var p := FetchIcoData(CheckIfAdmin(InitialPage, Some(wallet), own, all), true, all);
            var r := Controls(true, p);
            && (c.sale.None? ==> r == [Control(InitializeButton, true)])
            && (c.sale.Some? && c.sale.value.admin == wallet ==>
                  r == [Control(DepositButton, true), Control(BuyButton, true)])
            && (c.sale.Some? && c.sale.value.admin != wallet ==> r == [Control(BuyButton, true)])
  {
  }

  // ---------------------------------------------------------------------
  // The page against the program

  /** The "Available" figure: committed minus sold. */
  function Available(d: Data): int
  {
    d.totalTokens - d.tokensSold
  }

  /** On a conserved chain the Available figure is never negative and is
      exactly the whole tokens the vault holds. */
  lemma AvailableIsVaultContent(c: Chain)
    requires Conserved(c) && c.sale.Some?
    ensures Available(c.sale.value) >= 0
    ensures Available(c.sale.value) * TOKEN_DECIMALS == c.tokens[c.vault].amount
  {
  }

  /** A buy sent from a page that shows the chain's sale names the
      recorded admin as payee, so the program never refuses it as
      InvalidAdmin. */
  lemma PageBuyPassesAdminCheck(c: Chain, p: Page, input: Option<int>, wallet: Option<Pubkey>,
                                walletAta: Pubkey, affordable: bool, ataExists: bool)
    requires p.icoData == c.sale
    ensures var r := Plan(BuyAction, input, wallet, walletAta, c.vault, p.icoData, affordable, ataExists);
            r.Submitted? ==> BuyTokens(c, r.ix.signer, r.ix.ata, r.ix.admin, r.ix.amount) != Err(Program(InvalidAdmin))
  {
  }

  /** The page accepts any positive amount that fits in u64, but the
      program refuses to initialize more than 18,446,744,073 whole tokens:
      once no sale exists yet and the wallet's token account loads, their
      raw value overflows. */
  lemma InitializeOverflowThreshold(c: Chain, input: Option<int>, wallet: Option<Pubkey>, walletAta: Pubkey)
    ensures var r := Plan(InitializeAction, input, wallet, walletAta, c.vault, None, true, true);
            r.Submitted? ==>
              (Execute(c, r.ix).error == Some(Program(Overflow)) <==>
                 c.sale.None? && c.vault !in c.tokens && walletAta in c.tokens && r.ix.amount > MAX_WHOLE_TOKENS)
  {
  }

  /** A confirmed Initialize, refreshed from the chain it produced, shows
      a sale of the entered amount, administered by the wallet, none sold. */
  lemma ConfirmedInitializeShowsSale(c: Chain, p: Page, input: Option<int>, wallet: Pubkey, walletAta: Pubkey,
                                     lookup: BalanceLookup)
    requires Plan(InitializeAction, input, Some(wallet), walletAta, c.vault, p.icoData, true, true).Submitted?
    requires Execute(c, Plan(InitializeAction, input, Some(wallet), walletAta, c.vault, p.icoData, true, true).ix).error.None?
    ensures var attempt := Plan(InitializeAction, input, Some(wallet), walletAta, c.vault, p.icoData, true, true);
            var after := Execute(c, attempt.ix).chain;
            var shown := Settle(p, attempt, true, Some(ListSales(after)), lookup);
            && shown.icoData == Some(Data(wallet, input.value, 0))
            && shown.balance == p.balance && !shown.loading
  {
  }

  /** A confirmed Deposit, refreshed from the chain it produced, shows the
      total up by the amount deposited and the sold count and admin as
      they were. */
  lemma ConfirmedDepositShowsTotal(c: Chain, p: Page, input: Option<int>, wallet: Pubkey, walletAta: Pubkey,
                                   lookup: BalanceLookup)
    requires p.icoData == c.sale
    requires Plan(DepositAction, input, Some(wallet), walletAta, c.vault, p.icoData, true, true).Submitted?
    requires Execute(c, Plan(DepositAction, input, Some(wallet), walletAta, c.vault, p.icoData, true, true).ix).error.None?
    ensures var attempt := Plan(DepositAction, input, Some(wallet), walletAta, c.vault, p.icoData, true, true);
            var after := Execute(c, attempt.ix).chain;
            var shown := Settle(p, attempt, true, Some(ListSales(after)), lookup);
            && c.sale.Some? && shown.icoData.Some?
            && shown.icoData.value.totalTokens == c.sale.value.totalTokens + input.value
            && shown.icoData.value.tokensSold == c.sale.value.tokensSold
            && shown.icoData.value.admin == c.sale.value.admin == wallet
            && shown.balance == p.balance
  {
  }

  /** A confirmed buy, refreshed from the chain it produced, shows the sold
      count up by the amount bought and a balance up by its raw value. */
  lemma ConfirmedBuyShowsPurchase(c: Chain, p: Page, input: Option<int>, wallet: Pubkey,
                                  walletAta: Pubkey, ataExists: bool)
    requires p.icoData == c.sale
    requires walletAta != c.vault
    requires walletAta in c.tokens
    requires Plan(BuyAction, input, Some(wallet), walletAta, c.vault, p.icoData, true, ataExists).Submitted?
    requires Execute(c, Plan(BuyAction, input, Some(wallet), walletAta, c.vault, p.icoData, true, ataExists).ix).error.None?
    ensures var attempt := Plan(BuyAction, input, Some(wallet), walletAta, c.vault, p.icoData, true, ataExists);
            var after := Execute(c, attempt.ix).chain;
            var shown := Settle(p, attempt, true, Some(ListSales(after)), LookupOnChain(after, walletAta));
            && shown.icoData.Some? && c.sale.Some?
            && shown.icoData.value.tokensSold == c.sale.value.tokensSold + input.value
            && shown.icoData.value.totalTokens == c.sale.value.totalTokens
            && shown.balance.Some? && IsNumeral(shown.balance.value)
            && Value(shown.balance.value) == c.tokens[walletAta].amount + input.value * TOKEN_DECIMALS
  {
  }
}

=== FILE: conservation.dfy ===
/** The vault invariants of the corrected sale program (the one `Execute`
    runs). While only its instructions touch the vault, the vault holds
    exactly the raw value of the unsold tokens (`Conserved`). Anyone may also send tokens into the vault,
    which breaks that equality but never the lower bound `Backed`: only the
    program can sign for the vault, so nothing else takes tokens out. The
    program never compares `tokens_sold` with `total_tokens`; on a conserved
    chain the bound follows from the equality, because a buy beyond the
    unsold amount finds the vault short and its transfer fails. */
module IcoConservation {
  import opened Wrappers
  import opened UInt64
  import opened Ledger
  import opened Ico

  /** No vault before the sale exists; afterwards a self-owned vault whose
      raw balance is `(total_tokens - tokens_sold) * 10^9`. */
  predicate Conserved(c: Chain)
  {
    match c.sale
    case None => c.vault !in c.tokens
    case Some(d) =>
      && c.vault in c.tokens
      && c.tokens[c.vault].owner == c.vault
      && c.tokens[c.vault].amount == (d.totalTokens - d.tokensSold) * TOKEN_DECIMALS
  }

  /** On a conserved chain no more tokens have been sold than committed. */
  lemma SoldWithinTotal(c: Chain)
    requires Conserved(c) && c.sale.Some?
    ensures c.sale.value.tokensSold <= c.sale.value.totalTokens
    ensures (c.sale.value.totalTokens - c.sale.value.tokensSold) * TOKEN_DECIMALS <= UINT64_MAX
  {
  }

  /** Create opens the vault with exactly the committed raw amount and nothing sold. */
  lemma CreatePreservesConserved(c: Chain, admin: Pubkey, adminAta: Pubkey, n: uint64)
    requires Conserved(c)
    ensures CreateIcoAta(c, admin, adminAta, n).Ok? ==> Conserved(CreateIcoAta(c, admin, adminAta, n).value)
  {
  }

  /** Deposit adds the same amount to the vault (raw) and to the total (whole). */
  lemma DepositPreservesConserved(c: Chain, admin: Pubkey, adminAta: Pubkey, dest: Pubkey, n: uint64)
    requires Conserved(c)
    requires adminAta != c.vault
    ensures DepositIcoInAta(c, admin, adminAta, dest, n).Ok? ==> Conserved(DepositIcoInAta(c, admin, adminAta, dest, n).value)
  {
  }

  /** Buy, as written, takes the same amount from the vault (raw) as it adds
      to the sold count (whole), whoever is paid. */
  lemma BuyAsWrittenPreservesConserved(c: Chain, user: Pubkey, userAta: Pubkey, payee: Pubkey, n: uint64)
    requires Conserved(c)
    requires userAta != c.vault
    ensures BuyTokensAsWritten(c, user, userAta, payee, n).Ok? ==> Conserved(BuyTokensAsWritten(c, user, userAta, payee, n).value)
  {
  }

  /** The corrected buy keeps the invariant too. */
  lemma BuyPreservesConserved(c: Chain, user: Pubkey, userAta: Pubkey, payee: Pubkey, n: uint64)
    requires Conserved(c)
    requires userAta != c.vault
    ensures BuyTokens(c, user, userAta, payee, n).Ok? ==> Conserved(BuyTokens(c, user, userAta, payee, n).value)
  {
    BuyAsWrittenPreservesConserved(c, user, userAta, payee, n);
  }

  /** Every transaction whose signer's token account is not the vault keeps
      the invariant, whether it commits or reverts. */
  lemma ExecutePreservesConserved(c: Chain, ix: Instruction)
    requires Conserved(c)
    requires ix.ata != c.vault
    ensures Conserved(Execute(c, ix).chain)
  {
  }

  /** The invariant holds after any sequence of such transactions. */
  lemma {:induction false} RunPreservesConserved(c: Chain, ixs: seq<Instruction>)
    requires Conserved(c)
    requires forall i :: 0 <= i < |ixs| ==> ixs[i].ata != c.vault
    ensures Conserved(Run(c, ixs))
    decreases |ixs|
  {
    if |ixs| > 0 {
      ExecutePreservesConserved(c, ixs[0]);
      var next := Execute(c, ixs[0]).chain;
      assert forall i :: 0 <= i < |ixs[1..]| ==> ixs[1..][i].ata != next.vault by {
        forall i | 0 <= i < |ixs[1..]| ensures ixs[1..][i].ata != next.vault {
          assert ixs[1..][i] == ixs[i + 1];
        }
      }
      RunPreservesConserved(next, ixs[1..]);
    }
  }

  /** On a conserved chain the sold counter cannot overflow: a buy whose
      vault transfer succeeds keeps `tokens_sold + amount <= total_tokens`.
      So once its accounts load and the payee is the admin, a buy reports
      `Overflow` exactly when the raw amount overflows. */
  lemma BuyOverflowsOnlyOnRawAmount(c: Chain, user: Pubkey, userAta: Pubkey, payee: Pubkey, n: uint64)
    requires Conserved(c)
    ensures BuyTokens(c, user, userAta, payee, n) == Err(Program(Overflow)) <==>
              BuyLoads(c, userAta) && c.sale.value.admin == payee && n * TOKEN_DECIMALS > UINT64_MAX
  {
  }

  /** A buy of more than the unsold tokens is refused (the vault transfer
      fails) and so changes nothing. */
  lemma BuyBeyondUnsoldFails(c: Chain, user: Pubkey, userAta: Pubkey, payee: Pubkey, n: uint64)
    requires Conserved(c) && c.sale.Some?
    requires n > c.sale.value.totalTokens - c.sale.value.tokensSold
    ensures BuyTokens(c, user, userAta, payee, n).Err?
    ensures Execute(c, Buy(user, userAta, payee, n)).chain == c
  {
  }

  /** A buy within the unsold tokens, paid to the recorded admin by a buyer
      who can afford it into an account of their own, goes through. The
      admin may be the buyer: paying oneself only needs the price in hand. */
  lemma BuyWithinUnsoldSucceeds(c: Chain, user: Pubkey, userAta: Pubkey, n: uint64)
    requires Conserved(c) && c.sale.Some?
    requires n <= c.sale.value.totalTokens - c.sale.value.tokensSold
    requires n * LAMPORTS_PER_TOKEN <= LamportsOf(c.lamports, user)
    requires user == c.sale.value.admin
             || LamportsOf(c.lamports, c.sale.value.admin) + n * LAMPORTS_PER_TOKEN <= UINT64_MAX
    requires userAta in c.tokens && userAta != c.vault
    requires c.tokens[userAta].amount + n * TOKEN_DECIMALS <= UINT64_MAX
    ensures BuyTokens(c, user, userAta, c.sale.value.admin, n).Ok?
  {
  }

  // ---------------------------------------------------------------------
  // Tokens sent into the vault by anyone

  /** No vault before the sale exists; afterwards a self-owned vault holding
      at least the raw value of the unsold tokens. */
  predicate Backed(c: Chain)
  {
    match c.sale
    case None => c.vault !in c.tokens
    case Some(d) =>
      && c.vault in c.tokens
      && c.tokens[c.vault].owner == c.vault
      && c.tokens[c.vault].amount >= (d.totalTokens - d.tokensSold) * TOKEN_DECIMALS
  }

  /** What can happen to the chain: a transaction of the program, or a
      plain token transfer signed by some key. */
  datatype Event =
    | Transaction(ix: Instruction)
    | Send(from: Pubkey, to: Pubkey, authority: Pubkey, amount: uint64)

  function Apply(c: Chain, e: Event): (r: Chain)
    ensures r.vault == c.vault
  {
    match e
    case Transaction(ix) => Execute(c, ix).chain
    case Send(from, to, authority, amount) =>
      var sent := TokenTransfer(c.tokens, from, to, authority, amount);
      if sent.Ok? then c.(tokens := sent.value) else c
  }

  function Replay(c: Chain, es: seq<Event>): (r: Chain)
    ensures r.vault == c.vault
    decreases |es|
  {
    if |es| == 0 then c else Replay(Apply(c, es[0]), es[1..])
  }

  /** The events the lower bound survives: transactions and transfers not
      signed by the vault (it is a program address, which no key outside
      the program signs for). A transaction may name the vault as the
      signer's token account: a buy into the vault raises the sold count
      without moving a token, which keeps the lower bound but not the
      equality. */
  predicate Admissible(vault: Pubkey, e: Event)
  {
    match e
    case Transaction(ix) => ix.signer != vault
    case Send(_, _, authority, _) => authority != vault
  }

  lemma ApplyKeepsBacked(c: Chain, e: Event)
    requires Backed(c)
    requires Admissible(c.vault, e)
    ensures Backed(Apply(c, e))
  {
  }

  /** The vault covers the unsold tokens after any admissible history. */
  lemma {:induction false} ReplayKeepsBacked(c: Chain, es: seq<Event>)
    requires Backed(c)
    requires forall i :: 0 <= i < |es| ==> Admissible(c.vault, es[i])
    ensures Backed(Replay(c, es))
    decreases |es|
  {
    if |es| > 0 {
      ApplyKeepsBacked(c, es[0]);
      var next := Apply(c, es[0]);
      assert forall i :: 0 <= i < |es[1..]| ==> Admissible(next.vault, es[1..][i]) by {
        forall i | 0 <= i < |es[1..]| ensures Admissible(next.vault, es[1..][i]) {
          assert es[1..][i] == es[i + 1];
        }
      }
      ReplayKeepsBacked(next, es[1..]);
    }
  }

  /** Tokens sent into the vault from outside break the equality: with one
      extra token in a sold-out vault, a buy of one goes through and the
      sold count passes the total. */
  lemma OutsideTokensBreakConservation()
    ensures var c := Chain(Pubkey(0), Some(Data(Pubkey(1), 10, 10)),
                           map[Pubkey(0) := TokenAccount(Pubkey(0), TOKEN_DECIMALS),
                               Pubkey(3) := TokenAccount(Pubkey(2), 0)],
                           map[Pubkey(2) := LAMPORTS_PER_TOKEN]);
            var r := BuyTokens(c, Pubkey(2), Pubkey(3), Pubkey(1), 1);
            && Backed(c) && !Conserved(c)
            && r.Ok? && r.value.sale.value.tokensSold > r.value.sale.value.totalTokens
            && Backed(r.value)
  {
  }
}

=== FILE: decimal.dfy ===
/** Base-10 rendering of a non-negative integer, as `toString()` on a
    big-number amount produces it, and the reading that undoes it. */
module Decimal {

  predicate IsDigit(ch: char)
  {
    '0' <= ch <= '9'
  }

  predicate IsNumeral(s: string)
  {
    |s| > 0 && forall i :: 0 <= i < |s| ==> IsDigit(s[i])
  }

  function DigitChar(d: nat): (ch: char)
    requires d < 10
    ensures IsDigit(ch) && ch as int - '0' as int == d
  {
    ('0' as int + d) as char
  }

  function DigitValue(ch: char): (d: nat)
    requires IsDigit(ch)
    ensures d < 10 && DigitChar(d) == ch
  {
    ch as int - '0' as int
  }

  /** The shortest numeral for `n`: digits only, no leading zero. */
  function NatToString(n: nat): (s: string)
    ensures IsNumeral(s)
    ensures s[0] == '0' ==> n == 0
    ensures n < 10 <==> |s| == 1
    decreases n
  {
    if n < 10 then [DigitChar(n)] else NatToString(n / 10) + [DigitChar(n % 10)]
  }

  /** The number a numeral denotes (the empty string reads as 0). */
  function Value(s: string): nat
    requires forall i :: 0 <= i < |s| ==> IsDigit(s[i])
    decreases |s|
  {
    if |s| == 0 then 0 else Value(s[..|s| - 1]) * 10 + DigitValue(s[|s| - 1])
  }

  /** Reading a rendered number gives the number back. */
  lemma {:induction false} ValueOfNatToString(n: nat)
    ensures Value(NatToString(n)) == n
    decreases n
  {
    if n >= 10 {
      var p := NatToString(n / 10);
      var s := p + [DigitChar(n % 10)];
      assert s[..|s| - 1] == p;
      ValueOfNatToString(n / 10);
    }
  }
}

=== FILE: findings.dfy ===
/** Three places, and one account aliasing, where the program as written does not keep the promise its
    own code makes elsewhere, each with an input that shows it. The model's
    `Execute` uses the corrected instructions from module Ico. */
module IcoFindings {
  import opened Wrappers
  import opened UInt64
  import opened Ledger
  import opened Ico
  import opened IcoConservation

  // ---------------------------------------------------------------------
  // 1. `buy_tokens` never compares its `admin` account with the record.

  /** A sale of 10 tokens with none sold; the buyer holds the price of one. */
  function ShopChain(): Chain
  {
    Chain(Pubkey(0),
          Some(Data(Pubkey(1), 10, 0)),
          map[Pubkey(0) := TokenAccount(Pubkey(0), 10 * TOKEN_DECIMALS),
              Pubkey(3) := TokenAccount(Pubkey(2), 0)],
          map[Pubkey(2) := LAMPORTS_PER_TOKEN, Pubkey(1) := 0])
  }

  /** The buyer names itself as the account to be paid: as written the
      purchase goes through, the buyer receives a whole token, keeps every
      lamport, and the recorded admin receives nothing. The corrected buy
      refuses the same call with InvalidAdmin. */
  lemma BuyerCanPayItself()
    ensures var c := ShopChain();
            var r := BuyTokensAsWritten(c, Pubkey(2), Pubkey(3), Pubkey(2), 1);
            && Conserved(c)
            && r.Ok?
            && r.value.tokens[Pubkey(3)].amount == TOKEN_DECIMALS
            && r.value.sale.value.tokensSold == 1
            && LamportsOf(r.value.lamports, Pubkey(2)) == LamportsOf(c.lamports, Pubkey(2))
            && LamportsOf(r.value.lamports, Pubkey(1)) == LamportsOf(c.lamports, Pubkey(1))
            && BuyTokens(c, Pubkey(2), Pubkey(3), Pubkey(2), 1) == Err(Program(InvalidAdmin))
  {
  }

  /** With the payee held to the record, every successful buy pays the
      recorded admin the full price whenever the buyer is someone else. */
  lemma CorrectedBuyPaysRecordedAdmin(c: Chain, user: Pubkey, userAta: Pubkey, payee: Pubkey, n: uint64)
    requires BuyTokens(c, user, userAta, payee, n).Ok?
    requires c.sale.Some? && user != c.sale.value.admin
    ensures var r := BuyTokens(c, user, userAta, payee, n).value;
            && LamportsOf(r.lamports, c.sale.value.admin) == LamportsOf(c.lamports, c.sale.value.admin) + n * LAMPORTS_PER_TOKEN
            && LamportsOf(r.lamports, user) == LamportsOf(c.lamports, user) - n * LAMPORTS_PER_TOKEN
  {
  }

  // ---------------------------------------------------------------------
  // 2. `deposit_ico_in_ata` adds to `total_tokens` with a plain `+=`.

  /** `deposit_ico_in_ata` as written, read as a release build without
      overflow checks: the addition to the total wraps modulo 2^64, and the
      destination token account is whatever the caller passes. */
  function DepositIcoInAtaAsWritten(c: Chain, admin: Pubkey, adminAta: Pubkey, dest: Pubkey, icoAmount: uint64): (r: Result<Chain, Error>)
    ensures r.Ok? <==> DepositFunds(c, admin, adminAta, dest, icoAmount).Ok?
    ensures DepositFunds(c, admin, adminAta, dest, icoAmount).Err? ==>
              r == Err(DepositFunds(c, admin, adminAta, dest, icoAmount).error)
    ensures r.Ok? ==>
              && r.value.tokens == TokenTransfer(c.tokens, adminAta, dest, admin, icoAmount * TOKEN_DECIMALS).value
              && r.value.lamports == c.lamports
              && r.value.vault == c.vault
    ensures r.Ok? ==>
              && c.sale.Some?
              && r.value.sale == Some(c.sale.value.(totalTokens := (c.sale.value.totalTokens + icoAmount) % (UINT64_MAX + 1)))
    ensures r.Ok? && c.sale.value.totalTokens + icoAmount > UINT64_MAX ==>
              r.value.sale.value.totalTokens < c.sale.value.totalTokens
  {
    match DepositFunds(c, admin, adminAta, dest, icoAmount)
    case Err(e) => Err(e)
    case Ok(t) =>
      Ok(c.(sale := Some(c.sale.value.(totalTokens := WrappingAdd(c.sale.value.totalTokens, icoAmount))), tokens := t))
  }

  /** A sale whose every committed token has been sold, with counters at
      the top of the u64 range; the admin holds one more whole token. */
  function ExhaustedChain(): Chain
  {
    Chain(Pubkey(0),
          Some(Data(Pubkey(1), UINT64_MAX, UINT64_MAX)),
          map[Pubkey(0) := TokenAccount(Pubkey(0), 0),
              Pubkey(2) := TokenAccount(Pubkey(1), TOKEN_DECIMALS)],
          map[])
  }

  /** Depositing one token there wraps the total to 0 while the vault gains
      10^9 raw units: the vault no longer matches the record, and the sold
      count exceeds the total. The checked deposit refuses with Overflow. */
  lemma WrappedDepositBreaksConservation()
    ensures var c := ExhaustedChain();
            var r := DepositIcoInAtaAsWritten(c, Pubkey(1), Pubkey(2), Pubkey(0), 1);
            && Conserved(c)
            && r.Ok?
            && r.value.sale.value.totalTokens == 0
            && r.value.sale.value.tokensSold > r.value.sale.value.totalTokens
            && !Conserved(r.value)
            && DepositIcoInAta(c, Pubkey(1), Pubkey(2), Pubkey(0), 1) == Err(Program(Overflow))
  {
  }

  // ---------------------------------------------------------------------
  // 3. `deposit_ico_in_ata` does not tie its destination to the vault.

  /** A sale of 10 tokens, none sold; the admin holds 5 more whole tokens
      and owns a second, empty token account. */
  function TwoAccountChain(): Chain
  {
    Chain(Pubkey(0),
          Some(Data(Pubkey(1), 10, 0)),
          map[Pubkey(0) := TokenAccount(Pubkey(0), 10 * TOKEN_DECIMALS),
              Pubkey(2) := TokenAccount(Pubkey(1), 5 * TOKEN_DECIMALS),
              Pubkey(3) := TokenAccount(Pubkey(1), 0)],
          map[])
  }

  /** Depositing 5 tokens into the admin's own second account raises the
      total to 15 while the vault still holds 10: the record promises
      tokens no buyer can receive. The corrected deposit refuses the call
      with ConstraintSeeds. */
  lemma DepositElsewhereBreaksConservation()
    ensures var c := TwoAccountChain();
            var r := DepositIcoInAtaAsWritten(c, Pubkey(1), Pubkey(2), Pubkey(3), 5);
            && Conserved(c)
            && r.Ok?
            && r.value.sale.value.totalTokens == 15
            && r.value.tokens[Pubkey(0)] == c.tokens[Pubkey(0)]
            && r.value.tokens[Pubkey(3)].amount == 5 * TOKEN_DECIMALS
            && r.value.tokens[Pubkey(2)].amount == 0
            && !Backed(r.value)
            && DepositIcoInAta(c, Pubkey(1), Pubkey(2), Pubkey(3), 5) == Err(ConstraintSeeds)
  {
  }

  /** The corrected deposit only ever credits the vault. */
  lemma CorrectedDepositCreditsVault(c: Chain, admin: Pubkey, adminAta: Pubkey, dest: Pubkey, n: uint64)
    requires DepositIcoInAta(c, admin, adminAta, dest, n).Ok?
    ensures dest == c.vault
    ensures adminAta != c.vault ==>
              DepositIcoInAta(c, admin, adminAta, dest, n).value.tokens[c.vault].amount
                == c.tokens[c.vault].amount + n * TOKEN_DECIMALS
  {
  }

  // ---------------------------------------------------------------------
  // 4. `buy_tokens` does not keep the buyer's token account apart from the vault.

  /** The buyer names the vault itself as the account to receive the
      tokens, and itself as payee: as written the purchase goes through,
      the sold count rises, and no token or lamport moves. */
  lemma BuyIntoVaultInflatesSold()
    ensures var c := ShopChain();
            var r := BuyTokensAsWritten(c, Pubkey(2), Pubkey(0), Pubkey(2), 1);
            && Conserved(c)
            && r.Ok?
            && r.value.sale.value.tokensSold == 1
            && r.value.tokens == c.tokens
            && r.value.lamports == c.lamports
            && !Conserved(r.value)
            && Backed(r.value)
  {
  }

  /** Repeated past the total, the same call leaves the page's Available
      figure negative: from a sale whose 10 tokens are all counted as sold
      while the vault still holds them, one more buy into the vault goes
      through, even when the corrected buy pays the recorded admin. */
  lemma BuyIntoVaultOversells()
    ensures var c := Chain(Pubkey(0),
                           Some(Data(Pubkey(1), 10, 10)),
                           map[Pubkey(0) := TokenAccount(Pubkey(0), 10 * TOKEN_DECIMALS)],
                           map[Pubkey(2) := LAMPORTS_PER_TOKEN]);
            var r := BuyTokens(c, Pubkey(2), Pubkey(0), Pubkey(1), 1);
            && Backed(c)
            && r.Ok?
            && r.value.sale.value.tokensSold == 11
            && r.value.tokens == c.tokens
            && r.value.sale.value.totalTokens - r.value.sale.value.tokensSold < 0
            && Backed(r.value)
  {
  }
}

=== FILE: ico.dfy ===
/** The on-chain sale program: one sale record and three instructions that
    move tokens into and out of the program's vault. Each instruction is a
    pure function from the chain state before it to the state after it, or
    to the error that aborted it; a Solana instruction that fails has no
    effect, so `Execute` keeps the state it started from on every error. */
module Ico {
  import opened Wrappers
  import opened UInt64
  import opened Ledger

  /** Price of one whole token: 0.001 SOL. */
  const LAMPORTS_PER_TOKEN: uint64 := 1_000_000
  /** Raw units per whole token (the mint has 9 decimals). */
  const TOKEN_DECIMALS: uint64 := 1_000_000_000

  /** The sale record: who may deposit, the whole tokens committed to the
      sale, and the whole tokens sold so far. */
  datatype Data = Data(admin: Pubkey, totalTokens: uint64, tokensSold: uint64)

  /** The program's own error codes. */
  datatype ErrorCode = Overflow | InvalidAdmin

  /** Everything that can abort an instruction. */
  datatype Error =
    | Program(code: ErrorCode)
    | AccountAlreadyInUse     // `init` of the vault or the record when it already exists
    | AccountNotInitialized   // an account the instruction loads does not exist
    | ConstraintSeeds         // the account named as the vault is not the vault
    | Token(token: TransferError)
    | System(system: TransferError)

  /** The part of the chain the program touches. `vault` is the program's
      token account, derived from the mint alone, so there is one vault and,
      because creating the sale opens it, at most one sale record. */
  datatype Chain = Chain(vault: Pubkey, sale: Option<Data>, tokens: TokenAccounts, lamports: Lamports)

  /** The instructions a transaction can carry. `signer` is the admin for
      create and deposit and the buyer for buy; `ata` is the signer's token
      account; `dest` in a deposit is the account named as the program's
      token account; `admin` in a buy is the account the lamports are paid to. */
  datatype Instruction =
    | CreateIco(signer: Pubkey, ata: Pubkey, amount: uint64)
    | Deposit(signer: Pubkey, ata: Pubkey, dest: Pubkey, amount: uint64)
    | Buy(signer: Pubkey, ata: Pubkey, admin: Pubkey, amount: uint64)

  /** The whole-token amount whose raw value first overflows u64. */
  const MAX_WHOLE_TOKENS: uint64 := 18_446_744_073

  /** Which whole-token amounts the program's checked multiplications accept. */
  lemma RawAmountFits(amount: uint64)
    ensures amount * TOKEN_DECIMALS <= UINT64_MAX <==> amount <= MAX_WHOLE_TOKENS
    ensures amount * TOKEN_DECIMALS <= UINT64_MAX ==> amount * LAMPORTS_PER_TOKEN <= UINT64_MAX
  {
  }

  /** `create_ico_ata`. Before the body runs, the admin's token account is
      loaded (refused if it does not exist); only then are the vault and the
      record opened by `init`, which names the admin as payer (each refused
      if it already exists). The body then
      moves `icoAmount` whole tokens from the admin's account into the vault,
      which is owned by itself, and writes a fresh record naming the signer
      as admin. */
  function CreateIcoAta(c: Chain, admin: Pubkey, adminAta: Pubkey, icoAmount: uint64): (r: Result<Chain, Error>)
    ensures r == Err(AccountNotInitialized) <==> adminAta !in c.tokens
    ensures r == Err(AccountAlreadyInUse) <==> adminAta in c.tokens && (c.sale.Some? || c.vault in c.tokens)
    ensures r == Err(Program(Overflow)) <==>
              && c.sale.None? && c.vault !in c.tokens && adminAta in c.tokens
              && icoAmount * TOKEN_DECIMALS > UINT64_MAX
    ensures r.Ok? <==>
              && c.sale.None? && c.vault !in c.tokens && adminAta in c.tokens
              && icoAmount * TOKEN_DECIMALS <= UINT64_MAX
              && c.tokens[adminAta].owner == admin
              && icoAmount * TOKEN_DECIMALS <= c.tokens[adminAta].amount
    ensures r.Ok? ==>
              && r.value.sale == Some(Data(admin, icoAmount, 0))
              && r.value.vault == c.vault
              && r.value.lamports == c.lamports
              && r.value.tokens.Keys == c.tokens.Keys + {c.vault}
              && r.value.tokens[c.vault] == TokenAccount(c.vault, icoAmount * TOKEN_DECIMALS)
              && r.value.tokens[adminAta].amount == c.tokens[adminAta].amount - icoAmount * TOKEN_DECIMALS
              && forall k :: k in c.tokens && k != adminAta ==> r.value.tokens[k] == c.tokens[k]
  {
    if adminAta !in c.tokens then Err(AccountNotInitialized)
    else if c.sale.Some? || c.vault in c.tokens then Err(AccountAlreadyInUse)
    else match CheckedMul(icoAmount, TOKEN_DECIMALS)
      case None => Err(Program(Overflow))
      case Some(raw) =>
        var withVault := c.tokens[c.vault := TokenAccount(c.vault, 0)];
        match TokenTransfer(withVault, adminAta, c.vault, admin, raw)
        case Err(e) => Err(Token(e))
        case Ok(t) => Ok(c.(sale := Some(Data(admin, icoAmount, 0)), tokens := t))
  }

  /** The accounts `deposit_ico_in_ata` loads before its body runs: the
      record, the destination token account and the admin's token account. */
  predicate DepositLoads(c: Chain, adminAta: Pubkey, dest: Pubkey)
  {
    c.sale.Some? && dest in c.tokens && adminAta in c.tokens
  }

  /** `deposit_ico_in_ata` up to the update of the record, as written: the
      accounts load, the signer must be the recorded admin, the raw amount
      must fit in u64, and the tokens move from the admin's account into
      `dest`, the token account the caller names as the program's. */
  function DepositFunds(c: Chain, admin: Pubkey, adminAta: Pubkey, dest: Pubkey, icoAmount: uint64): (r: Result<TokenAccounts, Error>)
    ensures r == Err(AccountNotInitialized) <==> !DepositLoads(c, adminAta, dest)
    ensures r == Err(Program(InvalidAdmin)) <==> DepositLoads(c, adminAta, dest) && c.sale.value.admin != admin
    ensures r == Err(Program(Overflow)) <==>
              && DepositLoads(c, adminAta, dest) && c.sale.value.admin == admin
              && icoAmount * TOKEN_DECIMALS > UINT64_MAX
    ensures r.Ok? <==>
              && DepositLoads(c, adminAta, dest) && c.sale.value.admin == admin
              && icoAmount * TOKEN_DECIMALS <= UINT64_MAX
              && TokenTransfer(c.tokens, adminAta, dest, admin, icoAmount * TOKEN_DECIMALS).Ok?
    ensures r.Ok? ==> r.value == TokenTransfer(c.tokens, adminAta, dest, admin, icoAmount * TOKEN_DECIMALS).value
  {
    if !DepositLoads(c, adminAta, dest) then Err(AccountNotInitialized)
    else if c.sale.value.admin != admin then Err(Program(InvalidAdmin))
    else match CheckedMul(icoAmount, TOKEN_DECIMALS)
      case None => Err(Program(Overflow))
      case Some(raw) =>
        match TokenTransfer(c.tokens, adminAta, dest, admin, raw)
        case Err(e) => Err(Token(e))
        case Ok(t) => Ok(t)
  }

  /** `deposit_ico_in_ata` corrected in two places (as written it is
      `IcoFindings.DepositIcoInAtaAsWritten`): the destination must be the
      vault, as the `seeds` constraint of `buy_tokens` already demands, and
      the addition to the total is checked. Only the recorded admin may add
      tokens; the vault grows by the raw amount and the total by the whole
      amount. */
  function DepositIcoInAta(c: Chain, admin: Pubkey, adminAta: Pubkey, dest: Pubkey, icoAmount: uint64): (r: Result<Chain, Error>)
    ensures r == Err(AccountNotInitialized) <==> !DepositLoads(c, adminAta, dest)
    ensures r == Err(ConstraintSeeds) <==> DepositLoads(c, adminAta, dest) && dest != c.vault
    ensures r == Err(Program(InvalidAdmin)) <==>
              DepositLoads(c, adminAta, dest) && dest == c.vault && c.sale.value.admin != admin
    ensures r == Err(Program(Overflow)) <==>
              && DepositLoads(c, adminAta, dest) && dest == c.vault && c.sale.value.admin == admin
              && (|| icoAmount * TOKEN_DECIMALS > UINT64_MAX
                  || (&& TokenTransfer(c.tokens, adminAta, c.vault, admin, icoAmount * TOKEN_DECIMALS).Ok?
                      && c.sale.value.totalTokens + icoAmount > UINT64_MAX))
    ensures r.Ok? ==>
              && c.sale.Some? && dest == c.vault
              && c.sale.value.totalTokens + icoAmount <= UINT64_MAX
              && r.value.sale == Some(c.sale.value.(totalTokens := c.sale.value.totalTokens + icoAmount))
              && r.value.vault == c.vault
              && r.value.lamports == c.lamports
              && r.value.tokens.Keys == c.tokens.Keys
    ensures r.Ok? && adminAta != c.vault ==>
              && r.value.tokens[c.vault].amount == c.tokens[c.vault].amount + icoAmount * TOKEN_DECIMALS
              && r.value.tokens[adminAta].amount == c.tokens[adminAta].amount - icoAmount * TOKEN_DECIMALS
              && forall k :: k in c.tokens && k != adminAta && k != c.vault ==> r.value.tokens[k] == c.tokens[k]
  {
    if DepositLoads(c, adminAta, dest) && dest != c.vault then Err(ConstraintSeeds)
    else match DepositFunds(c, admin, adminAta, dest, icoAmount)
      case Err(e) => Err(e)
      case Ok(t) =>
        match CheckedAdd(c.sale.value.totalTokens, icoAmount)
        case None => Err(Program(Overflow))
        case Some(total) => Ok(c.(sale := Some(c.sale.value.(totalTokens := total)), tokens := t))
  }

  /** The accounts `buy_tokens` loads before its body runs: the record, the
      vault and the buyer's token account. */
  predicate BuyLoads(c: Chain, userAta: Pubkey)
  {
    c.sale.Some? && c.vault in c.tokens && userAta in c.tokens
  }

  /** `buy_tokens` exactly as the program checks it: the `admin` account that
      receives the lamports is whatever the caller names. The buyer pays
      `tokenAmount * LAMPORTS_PER_TOKEN` lamports to `payee`, the vault pays
      the raw token amount to the buyer's account, and the record's sold
      count grows by `tokenAmount` through a checked addition. */
  function BuyTokensAsWritten(c: Chain, user: Pubkey, userAta: Pubkey, payee: Pubkey, tokenAmount: uint64): (r: Result<Chain, Error>)
    ensures r == Err(AccountNotInitialized) <==> !BuyLoads(c, userAta)
    ensures r == Err(Program(Overflow)) <==>
              && BuyLoads(c, userAta)
              && (|| tokenAmount * TOKEN_DECIMALS > UINT64_MAX
                  || (&& LamportTransfer(c.lamports, user, payee, tokenAmount * LAMPORTS_PER_TOKEN).Ok?
                      && TokenTransfer(c.tokens, c.vault, userAta, c.vault, tokenAmount * TOKEN_DECIMALS).Ok?
                      && c.sale.value.tokensSold + tokenAmount > UINT64_MAX))
    ensures r.Ok? <==>
              && BuyLoads(c, userAta)
              && tokenAmount * TOKEN_DECIMALS <= UINT64_MAX
              && tokenAmount * LAMPORTS_PER_TOKEN <= LamportsOf(c.lamports, user)
              && (user == payee || LamportsOf(c.lamports, payee) + tokenAmount * LAMPORTS_PER_TOKEN <= UINT64_MAX)
              && tokenAmount * TOKEN_DECIMALS <= c.tokens[c.vault].amount
              && c.tokens[c.vault].owner == c.vault
              && (userAta == c.vault || c.tokens[userAta].amount + tokenAmount * TOKEN_DECIMALS <= UINT64_MAX)
              && c.sale.value.tokensSold + tokenAmount <= UINT64_MAX
    ensures r.Ok? ==>
              && c.sale.Some?
              && r.value.sale == Some(c.sale.value.(tokensSold := c.sale.value.tokensSold + tokenAmount))
              && r.value.vault == c.vault
              && r.value.tokens.Keys == c.tokens.Keys
    ensures r.Ok? ==>
              && LamportsOf(r.value.lamports, user) + LamportsOf(r.value.lamports, payee)
                 == LamportsOf(c.lamports, user) + LamportsOf(c.lamports, payee)
              && forall k :: k != user && k != payee ==> LamportsOf(r.value.lamports, k) == LamportsOf(c.lamports, k)
    ensures r.Ok? && user != payee ==>
              && LamportsOf(r.value.lamports, user) == LamportsOf(c.lamports, user) - tokenAmount * LAMPORTS_PER_TOKEN
              && LamportsOf(r.value.lamports, payee) == LamportsOf(c.lamports, payee) + tokenAmount * LAMPORTS_PER_TOKEN
    ensures r.Ok? && userAta != c.vault ==>
              && r.value.tokens[c.vault].amount == c.tokens[c.vault].amount - tokenAmount * TOKEN_DECIMALS
              && r.value.tokens[userAta].amount == c.tokens[userAta].amount + tokenAmount * TOKEN_DECIMALS
              && forall k :: k in c.tokens && k != userAta && k != c.vault ==> r.value.tokens[k] == c.tokens[k]
  {
    if !BuyLoads(c, userAta) then Err(AccountNotInitialized)
    else match CheckedMul(tokenAmount, TOKEN_DECIMALS)
      case None => Err(Program(Overflow))
      case Some(raw) =>
        RawAmountFits(tokenAmount);
        match CheckedMul(tokenAmount, LAMPORTS_PER_TOKEN)
        case None => Err(Program(Overflow))
        case Some(cost) =>
          match LamportTransfer(c.lamports, user, payee, cost)
          case Err(e) => Err(System(e))
          case Ok(l) =>
            match TokenTransfer(c.tokens, c.vault, userAta, c.vault, raw)
            case Err(e) => Err(Token(e))
            case Ok(t) =>
              match CheckedAdd(c.sale.value.tokensSold, tokenAmount)
              case None => Err(Program(Overflow))
              case Some(sold) =>
                Ok(c.(sale := Some(c.sale.value.(tokensSold := sold)), tokens := t, lamports := l))
  }

  /** `buy_tokens` with the payee held to the recorded admin once the
      accounts have loaded, the check `deposit_ico_in_ata` already makes of
      its signer. */
  function BuyTokens(c: Chain, user: Pubkey, userAta: Pubkey, payee: Pubkey, tokenAmount: uint64): (r: Result<Chain, Error>)
    ensures r == Err(AccountNotInitialized) <==> !BuyLoads(c, userAta)
    ensures r == Err(Program(InvalidAdmin)) <==> BuyLoads(c, userAta) && c.sale.value.admin != payee
    ensures r.Ok? ==> c.sale.Some? && payee == c.sale.value.admin
    ensures BuyLoads(c, userAta) && payee == c.sale.value.admin ==>
              r == BuyTokensAsWritten(c, user, userAta, payee, tokenAmount)
    ensures r.Ok? && user != payee ==>
              LamportsOf(r.value.lamports, c.sale.value.admin)
              == LamportsOf(c.lamports, c.sale.value.admin) + tokenAmount * LAMPORTS_PER_TOKEN
  {
    if BuyLoads(c, userAta) && c.sale.value.admin != payee then Err(Program(InvalidAdmin))
    else BuyTokensAsWritten(c, user, userAta, payee, tokenAmount)
  }

  /** What a transaction leaves behind: the chain after it and the error
      that aborted it, if any. */
  datatype Outcome = Outcome(chain: Chain, error: Option<Error>)

  /** Runs one instruction of the corrected program atomically: on success
      its new state is committed, on any error every account is as it was
      (the fee a failed transaction still pays is outside the model). */
  function Execute(c: Chain, ix: Instruction): (r: Outcome)
    ensures r.error.Some? ==> r.chain == c
    ensures r.chain.vault == c.vault
    ensures r.error.None? <==>
              match ix
              case CreateIco(s, a, n) => CreateIcoAta(c, s, a, n).Ok?
              case Deposit(s, a, d, n) => DepositIcoInAta(c, s, a, d, n).Ok?
              case Buy(s, a, p, n) => BuyTokens(c, s, a, p, n).Ok?
    ensures r.error.None? ==>
              r.chain == match ix
                         case CreateIco(s, a, n) => CreateIcoAta(c, s, a, n).value
                         case Deposit(s, a, d, n) => DepositIcoInAta(c, s, a, d, n).value
                         case Buy(s, a, p, n) => BuyTokens(c, s, a, p, n).value
  {
    var result := match ix
      case CreateIco(s, a, n) => CreateIcoAta(c, s, a, n)
      case Deposit(s, a, d, n) => DepositIcoInAta(c, s, a, d, n)
      case Buy(s, a, p, n) => BuyTokens(c, s, a, p, n);
    match result
    case Ok(next) => Outcome(next, None)
    case Err(e) => Outcome(c, Some(e))
  }

  /** Runs a sequence of transactions of the corrected program, each
      committed or reverted on its own. */
  function Run(c: Chain, ixs: seq<Instruction>): (r: Chain)
    ensures r.vault == c.vault
    decreases |ixs|
  {
    if |ixs| == 0 then c else Run(Execute(c, ixs[0]).chain, ixs[1..])
  }
}

=== FILE: ledger.dfy ===
/** The two kinds of balance the sale program moves, kept as maps from
    account address to balance: SPL token accounts of the sale's mint, and
    native lamport balances. The token program and the system program are
    reduced to the transfer each performs and the reasons it refuses. */
module Ledger {
  import opened Wrappers
  import opened UInt64

  /** An account address. Only equality of addresses matters to the model. */
  datatype Pubkey = Pubkey(id: nat)

  /** A token account of the sale's mint: the key allowed to move its tokens,
      and its raw balance (whole tokens times 10^9). */
  datatype TokenAccount = TokenAccount(owner: Pubkey, amount: uint64)

  type TokenAccounts = map<Pubkey, TokenAccount>

  /** Native balances; an address absent from the map holds zero lamports. */
  type Lamports = map<Pubkey, uint64>

  /** Why the token or system program refuses a transfer. */
  datatype TransferError =
    | MissingAccount      // a token account that does not exist
    | InsufficientFunds   // the source holds less than the amount
    | OwnerMismatch       // the signing authority does not own the source
    | BalanceOverflow     // the destination balance would exceed u64

  function LamportsOf(m: Lamports, k: Pubkey): uint64
  {
    if k in m then m[k] else 0
  }

  /** The SPL token program's Transfer, checked in the program's own order:
      both accounts exist, the source covers the amount, the authority owns
      the source; a transfer to the same account then changes nothing, and
      otherwise the destination's checked addition must not overflow. */
  function TokenTransfer(t: TokenAccounts, from: Pubkey, to: Pubkey, authority: Pubkey, amount: uint64)
    : (r: Result<TokenAccounts, TransferError>)
    ensures r.Ok? <==>
              && from in t && to in t
              && amount <= t[from].amount
              && t[from].owner == authority
              && (from == to || t[to].amount + amount <= UINT64_MAX)
    ensures r.Ok? ==> r.value.Keys == t.Keys
    ensures r.Ok? && from != to ==>
              && r.value[from] == t[from].(amount := t[from].amount - amount)
              && r.value[to] == t[to].(amount := t[to].amount + amount)
    ensures r.Ok? && from == to ==> r.value == t
    ensures r.Ok? ==> forall k :: k in t && k != from && k != to ==> r.value[k] == t[k]
  {
    if from !in t || to !in t then Err(MissingAccount)
    else if t[from].amount < amount then Err(InsufficientFunds)
    else if t[from].owner != authority then Err(OwnerMismatch)
    else if from == to then Ok(t)
    else if t[to].amount + amount > UINT64_MAX then Err(BalanceOverflow)
    else
      Ok(t[from := t[from].(amount := t[from].amount - amount)]
          [to := t[to].(amount := t[to].amount + amount)])
  }

  /** The system program's Transfer between two native balances. The source
      must cover the amount; a transfer to itself changes nothing; the
      destination's checked addition must not overflow. */
  function LamportTransfer(m: Lamports, from: Pubkey, to: Pubkey, amount: uint64)
    : (r: Result<Lamports, TransferError>)
    ensures r.Ok? <==>
              && amount <= LamportsOf(m, from)
              && (from == to || LamportsOf(m, to) + amount <= UINT64_MAX)
    ensures r.Ok? && from != to ==>
              && LamportsOf(r.value, from) == LamportsOf(m, from) - amount
              && LamportsOf(r.value, to) == LamportsOf(m, to) + amount
    ensures r.Ok? ==> LamportsOf(r.value, from) + LamportsOf(r.value, to) == LamportsOf(m, from) + LamportsOf(m, to)
    ensures r.Ok? ==> forall k :: k != from && k != to ==> LamportsOf(r.value, k) == LamportsOf(m, k)
  {
    if LamportsOf(m, from) < amount then Err(InsufficientFunds)
    else if from == to then Ok(m)
    else if LamportsOf(m, to) + amount > UINT64_MAX then Err(BalanceOverflow)
    else Ok(m[from := LamportsOf(m, from) - amount][to := LamportsOf(m, to) + amount])
  }
}

=== FILE: uint64.dfy ===
/** Unsigned 64-bit integers as the on-chain program uses them: every stored
    quantity lies in [0, 2^64), `checked_*` reports overflow as None, and a
    plain `+=` in a build without overflow checks wraps modulo 2^64. */
module UInt64 {
  import opened Wrappers

  const UINT64_MAX: int := 0xFFFF_FFFF_FFFF_FFFF

  type uint64 = x: int | 0 <= x <= UINT64_MAX

  /** Rust's `u64::checked_mul`. */
  function CheckedMul(a: uint64, b: uint64): (r: Option<uint64>)
    ensures r.Some? <==> a * b <= UINT64_MAX
    ensures r.Some? ==> r.value == a * b
  {
    if a * b <= UINT64_MAX then Some(a * b) else None
  }

  /** Rust's `u64::checked_add`. */
  function CheckedAdd(a: uint64, b: uint64): (r: Option<uint64>)
    ensures r.Some? <==> a + b <= UINT64_MAX
    ensures r.Some? ==> r.value == a + b
  {
    if a + b <= UINT64_MAX then Some(a + b) else None
  }

  /** Rust's `+` on u64 in a release build without overflow checks. */
  function WrappingAdd(a: uint64, b: uint64): (r: uint64)
    ensures r == (a + b) % (UINT64_MAX + 1)
    ensures a + b > UINT64_MAX ==> r < a
  {
    if a + b <= UINT64_MAX then a + b else a + b - (UINT64_MAX + 1)
  }
}

=== FILE: wrappers.dfy ===
/** Failure-carrying values shared by the whole model. */
module Wrappers {

  /** A value that may be absent: a missing account, a fetch that threw, an empty input. */
  datatype Option<+T> = None | Some(value: T)

  /** The outcome of an instruction or transfer: the new state, or the error that aborted it. */
  datatype Result<+T, +E> = Ok(value: T) | Err(error: E)
}
